=== FILE: README.md ===
# microsoftgraph client core, modelled in Dafny

This project models the decision layer of the `microsoftgraph` Python client
for the Microsoft Graph API:

- `Client._parse`, which turns an HTTP response into a returned body, a
  returned `None`, or one of the client's exceptions;
- `Client._request`, which builds the request headers (`Accept`, the bearer
  `Authorization`, the caller's headers, and `Content-Type` unless files are
  sent);
- the client's token state (`__init__`, `set_token`) and the
  `token_required` decorator that guards every endpoint method;
- the OAuth 2.0 helpers `authorization_url`, `exchange_code` and
  `refresh_token`, which follow the authorization-code and refresh grants of
  RFC 6749 (sections 4.1.1, 4.1.3 and 6) against one of two endpoint
  families picked by the `office365` flag;
- `send_mail`, with its argument check and the shape of its JSON message,
  and two endpoint wrappers, `get_me` and `create_page`.

Everything is a pure function over immutable datatypes. The network is a
parameter `send: HttpRequest -> Response`. Each call is split into a *plan*,
which is the request to send or the exception raised before anything is
sent, and `Transport.Perform`, the one place the network is used. "No network
call is made" is stated as "the outcome is the same whatever `send` answers".
A Python call that returns `v`, returns `None` or raises `E` becomes
`Returned(v)`, `ReturnedNone` or `Raised(E)`.

Modules, one per file: `Wrappers` (Option, Result), `JsonValues` (JSON trees
and response bodies), `Text` (substring test, space join/split),
`Exceptions` (error kinds, faults, outcomes), `Http` (requests and
responses), `ClientState`, `Parsing`, `Decorators`, `Transport`, `Auth`,
`Mail` and `Endpoints`.

Some behaviour of the code that the model keeps as it is:

- The exception class for status 501 is `NotImplemented`.
- When the caller passes a truthy `state`, `authorization_url` stores Python
  `None` under `state` (see Findings).
- The caller's headers override `Accept` and `Authorization` as well. Only
  `Content-Type` is written after them.
- `_request` does no token check of its own. A `None` slot fails with
  `TypeError` when it is subscripted. The only check before I/O is the
  decorator, and it looks at `token` alone (see Findings).
- The endpoint methods (`Mail`, `Endpoints`), `_request`, `exchange_code` and
  `refresh_token` use the guard and `_parse` as written. The corrected guard
  and parse appear only in their own members, in `Transport.PerformCorrected`
  and in `Endpoints.GetMeCorrected`.

## Model

| member | source | states |
|---|---|---|
| `Text.Contains` | microsoftgraph/client.py:603 | Python's `sub in s` holds exactly when `sub` occurs at some index of `s` |
| `Text.JoinSpaces` | microsoftgraph/client.py:57 | `' '.join` yields `""` for no parts; otherwise it starts with the first part, puts a space after it when there is a second, and is as long as all parts together plus one space between each two |
| `Text.SplitJoinRoundTrip` | microsoftgraph/client.py:57 | the space-joined scope string splits back into the caller's scope list when the list is non-empty and no scope contains a space |
| `ClientState.NewClient` | microsoftgraph/client.py:23-32 | a new client keeps its configuration as given, with defaults `v1.0`, `common` and non-office365, and holds no token in either slot |
| `ClientState.Client.BaseUrl` | microsoftgraph/client.py:29 | the base URL is the Graph resource URL, then the API version, then one closing `/` |
| `ClientState.SetToken` | microsoftgraph/client.py:124-134 | `set_token` writes the slot the `office365` flag selects, which is the slot `_request` reads; the other slot and all configuration stay unchanged |
| `ClientState.SetTokensEffect` | microsoftgraph/client.py:124-134 | after any run of `set_token` calls, the configuration and the idle slot are as at the start and the active slot holds the last token set |
| `ClientState.LastSetTokenWins` | microsoftgraph/client.py:124-134 | a second `set_token` erases every trace of the first |
| `Parsing.ErrorKindsDistinct` | microsoftgraph/client.py:611-652 | each of the 21 mapped statuses has its own error kind; the kind names its status back, and none of them is `UnknownError` |
| `Parsing.DecodeBody` | microsoftgraph/client.py:601-606 | a missing `Content-Type` is a `KeyError`; the body is decoded JSON exactly when the header contains `application/json`, and raw text otherwise; an undecodable JSON body raises |
| `Parsing.ParseAsWritten` | microsoftgraph/client.py:601-654 | after the body is read: 200/201/202 return it unchanged, 204 returns `None`, each mapped status raises its kind with the body, and every other status raises `UnknownError` with the body |
| `Parsing.NoContentAsWritten` | microsoftgraph/client.py:601-610 | as written, a 204 returns `None` exactly when its body could be read, and a 204 without `Content-Type` raises `KeyError` |
| `Parsing.NoContentWithoutContentTypeRaises` | microsoftgraph/client.py:603-610 | the concrete response 204 with no `Content-Type` raises `KeyError` instead of returning `None` |
| `Parsing.Parse` | microsoftgraph/client.py:607-654 | 204 returns `None` and never raises; every other status is classified as written |
| `Parsing.ClassifiedByStatusAlone` | microsoftgraph/client.py:607-654 | the outcome class and the error kind depend on the status only, and a 2xx success hands back the decoded body |
| `Parsing.DistinctStatusesDistinctErrors` | microsoftgraph/client.py:611-652 | two different mapped statuses raise two different kinds, each carrying its own response body |
| `Decorators.GuardAsWritten` | microsoftgraph/decorators.py:6-14 | a falsy `token` raises `TokenRequired('You must set the Token.')`; a truthy one returns the wrapped operation's result on the same client |
| `Decorators.GuardReadsOnlyToken` | microsoftgraph/decorators.py:8-12 | two clients that agree on `token` are both refused or both passed on, whatever their `office365_token`, flag or configuration |
| `Decorators.Office365GuardRefusesForever` | microsoftgraph/decorators.py:9-11 | an office365 client refuses every guarded call after any run of `set_token` calls, because `token` stays `None` |
| `Decorators.Guard` | microsoftgraph/decorators.py:6-14 | the corrected guard checks the slot the flag selects; it refuses when that slot is falsy and otherwise passes the same client to the wrapped operation |
| `Decorators.GuardAdmitsAfterSetToken` | microsoftgraph/decorators.py:10-12 | in either mode, after `set_token` with a non-empty token the corrected guard delegates to the wrapped operation |
| `Decorators.GuardAgreesOutsideOffice365` | microsoftgraph/decorators.py:10-12 | outside office365 mode the corrected guard is the guard as written |
| `Transport.BuildHeaders` | microsoftgraph/client.py:585-598 | the header keys are `Accept`, `Authorization`, the caller's keys, and `Content-Type` when no files are passed; the caller overrides the defaults, and `Content-Type: application/json` overrides the caller when no files are passed; `Authorization` is `Bearer ` plus the selected slot's `access_token`; a `None` slot or a missing `access_token` fails |
| `Transport.AuthorizationFollowsSetToken` | microsoftgraph/client.py:589-592 | in either mode, after `set_token(t)` the `Authorization` header is `Bearer ` plus `t['access_token']` |
| `Transport.PlanRequest` | microsoftgraph/client.py:585-599 | the request sent has the caller's method, URL and keyword arguments and the built headers; a header failure is raised before sending |
| `Transport.Perform` | microsoftgraph/client.py:599 | a refused plan raises its own exception; otherwise the network's response goes through `_parse` as written |
| `Transport.PerformCorrected` | microsoftgraph/client.py:599 | with the corrected `_parse`: a refused plan raises its exception, a 204 answer is `None`, and every other answer is handled as by `Transport.Perform` |
| `Transport.RefusedPlanMakesNoCall` | microsoftgraph/client.py:585-599 | a call refused before sending has the same outcome for every network, so no request is made |
| `Transport.Request` | microsoftgraph/client.py:585-599 | `_request` raises before any I/O when the selected slot is `None` (`TypeError`) or has no `access_token` (`KeyError`), and in general whenever the headers cannot be built; otherwise it returns `_parse` as written of the response to the request with the built headers |
| `Auth.AuthorizeUrl` | microsoftgraph/client.py:64-67 | the authorization prefix is the client's authority followed by the authorize endpoint of the same family |
| `Auth.TokenUrl` | microsoftgraph/client.py:90-93 | the token URL is the client's authority followed by the token endpoint of the same family |
| `Auth.EndpointsShareAuthority` | microsoftgraph/client.py:14-21 | both endpoints start with the same authority, `https://login.live.com` in office365 mode and `https://login.microsoftonline.com/` plus the account type otherwise |
| `Auth.AuthorizationUrlAsWritten` | microsoftgraph/client.py:54-68 | the query is an RFC 6749 section 4.1.1 code request with `response_mode=query` and the space-joined scopes; the key `state` is present exactly when the caller's state is truthy, and its value is `None` |
| `Auth.StateValueDropped` | microsoftgraph/client.py:62-63 | as written, no non-empty state value ever reaches the query |
| `Auth.AuthorizationUrl` | microsoftgraph/client.py:34-68 | the corrected URL carries the caller's truthy state as given and is otherwise the URL as written |
| `Auth.ScopesRecoverable` | microsoftgraph/client.py:57 | the `scope` parameter splits back into the caller's scopes, in the URL as written and in the corrected one |
| `Auth.ExchangeCodeRequest` | microsoftgraph/client.py:83-93 | `exchange_code` POSTs, with no bearer header, exactly five form fields to the family's token URL; they make an RFC 6749 section 4.1.3 request with the client's credentials in the body |
| `Auth.RefreshTokenRequest` | microsoftgraph/client.py:111-121 | `refresh_token` POSTs exactly five form fields to the same token URL; they make an RFC 6749 section 6 refresh request with the client's credentials and redirect URI |
| `Auth.ExchangeCode` | microsoftgraph/client.py:70-94 | the code exchange is not guarded and never fails for want of a token; its outcome is `_parse` as written of the token endpoint's answer |
| `Auth.RefreshToken` | microsoftgraph/client.py:96-122 | the refresh is not guarded and never fails for want of a token; its outcome is `_parse` as written of the token endpoint's answer |
| `Auth.TokenRequestsDifferOnlyInGrant` | microsoftgraph/client.py:83-121 | both token requests go to one URL with the same form apart from the grant type and its code or refresh token, and their grant types differ |
| `Mail.RecipientList` | microsoftgraph/client.py:407 | one `{EmailAddress: {Address: a}}` entry per recipient, in the caller's order |
| `Mail.MediaTypeOrEmpty` | microsoftgraph/client.py:414-415 | an attachment's content type is the guessed media type, or the empty string when none is guessed |
| `Mail.AttachmentList` | microsoftgraph/client.py:410-418 | one attachment entry per file name, in the caller's order |
| `Mail.AttachmentsAreFileAttachments` | microsoftgraph/client.py:416-418 | every attachment entry is tagged `#microsoft.graph.fileAttachment` and carries the base64 text of its file |
| `Mail.MessageContent` | microsoftgraph/client.py:421-424 | the `Message` object has exactly `Subject`, `Body`, `ToRecipients` and `Attachments`; `Body` is `{ContentType: content_type, Content: body}`, and the others hold the subject, the recipient list and the attachment list |
| `Mail.EmailMessage` | microsoftgraph/client.py:421-425 | the posted document has exactly `Message` and `SaveToSentItems`, and the latter is the string `'true'` |
| `Mail.EmailMessageReadsBack` | microsoftgraph/client.py:406-425 | the message's recipients and attachment names read back as exactly the caller's lists |
| `Mail.PlanSendMail` | microsoftgraph/client.py:387-428 | with the defaults `body=''` and `content_type='HTML'`: a falsy `token` raises `TokenRequired`; then an empty subject or recipient list raises `ValueError('sendmail(): required arguments missing')`; then a `None` selected slot raises `TypeError` and a selected slot without `access_token` raises `KeyError`; past the guard and the argument check the result is exactly what `_request` builds for a POST of `EmailMessage(...)` as JSON to `me/microsoft.graph.sendMail` under the base URL, so a sent request carries `Accept: application/json` and `Authorization: Bearer <access_token>`, with the caller's recipients and attachments |
| `Mail.SendMail` | microsoftgraph/client.py:387-428 | without a token, or with a missing argument, `send_mail` raises before sending, whatever the network would answer; any other failed plan (a `None` selected slot) raises its exception before sending; when the plan succeeds, it returns `_parse` as written of the answer to its POST |
| `Endpoints.PlanGetMe` | microsoftgraph/client.py:136-151 | a falsy `token` raises `TokenRequired`; a truthy `token` with a `None` selected slot raises `TypeError`, and with a selected slot without `access_token` raises `KeyError`; past the guard the result is exactly what `_request` builds for a GET of `<resource><version>/me` with the caller's params, so a sent request carries `Accept`, `Authorization: Bearer <access_token>` and a JSON content type |
| `Endpoints.GetMe` | microsoftgraph/client.py:136-151 | a falsy `token` makes `get_me` raise `TokenRequired`; a failed plan raises its exception before sending, so a truthy `token` with a `None` selected slot raises `TypeError`; when the plan succeeds, it returns `_parse` as written of the response to the planned GET |
| `Endpoints.GetMeCorrected` | microsoftgraph/client.py:136-151 | `get_me` with both corrections: a falsy selected slot raises `TokenRequired`; a truthy selected slot without `access_token` raises `KeyError`; a selected slot with an `access_token` gets the corrected parse of the response to the GET |
| `Endpoints.Office365GetMeDiverges` | microsoftgraph/decorators.py:10-12 | for an office365 client after `set_token` with an `access_token`, the written `get_me` raises `TokenRequired` while the corrected one sends its GET |
| `Endpoints.PlanCreatePage` | microsoftgraph/client.py:261-273 | a falsy `token` raises `TokenRequired`; a truthy `token` with a `None` selected slot raises `TypeError`, and with a selected slot without `access_token` raises `KeyError`; past the guard the result is exactly what `_request` builds for a multipart POST to the section's pages URL (with the double slash the code builds), so a sent request carries `Accept` and `Authorization: Bearer <access_token>` and leaves `Content-Type` unset |
| `Endpoints.CreatePage` | microsoftgraph/client.py:261-273 | a falsy `token` makes `create_page` raise `TokenRequired`; a failed plan raises its exception before sending, so a truthy `token` with a `None` selected slot raises `TypeError`; when the plan succeeds, it returns `_parse` as written of the response to the planned POST |
| `Endpoints.FreshClientMakesNoCall` | microsoftgraph/decorators.py:10-11 | a newly built client's `get_me` raises `TokenRequired` in either mode, with the same outcome for every network |

## Left out

- The HTTP transport (`requests.request`, `requests.post`). It is a parameter mapping a request to a status, an optional `Content-Type`, a text and a decoded body. Transport errors (network, TLS) are not modelled.
- JSON decoding (`response.json()`). It is a foreign call, so the response carries its result as a field, and `None` means the decoder rejected the text.
- `urlencode` and `quote_plus` percent-encoding. An authorization URL is modelled as its prefix plus a parameter map, because the encoder and Python 2's dict order are outside the model.
- Header names are compared exactly. `requests` treats them case-insensitively when it merges them, and that merge is outside the model.
- Reading attachment files, `base64.b64encode` and `mimetypes.guess_type`. These are file-system and library calls, passed in as functions (`Mail.FileAccess`). A failure to open a file is not modelled.
- Python `None` for `subject`, `recipients`, `attachments` and `headers` is modelled as the empty string, list or map. Both are falsy and take the same branch.
- A token is a string-to-string mapping. A token of another type, such as a plain string as the `set_token` docstring suggests, would fail when subscripted. That failure is not modelled.
- `create_page` is modelled with a files payload only. Passing `files=None` explicitly is not modelled.
- The other endpoint wrappers: `get_message`, the subscription, OneNote, calendar, contact, drive and Excel methods. Each is a guard plus one URL template around `_request`, the same pattern as `Endpoints.PlanGetMe` and `Endpoints.PlanCreatePage`.
- The helpers `_get`, `_post`, `_put`, `_patch` and `_delete`. Each only fixes the method passed to `_request`, which is the `verb` argument of `Transport.PlanRequest`.
- The `microsoftgraph.exceptions` module is not part of this model. Its classes are the `Exceptions.ErrorKind` constructors and the `Exceptions.Fault` cases.
- Thread safety of `set_token` on a shared client. The model is sequential.
- `setup.py`: packaging metadata only.

## Findings

| source | as written | input that shows it | evidently intended | confidence | as-written member | corrected member |
|---|---|---|---|---|---|---|
| microsoftgraph/client.py:603-610 | `_parse` looks up `Content-Type` and decodes JSON before it checks for 204 | a 204 response with no `Content-Type` header raises `KeyError` instead of returning `None` | 204 returns `None` without reading the body | medium, not executed | `Parsing.NoContentWithoutContentTypeRaises` | `Parsing.Parse` |
| microsoftgraph/client.py:62-63 | a truthy `state` is stored as `None` | `authorization_url(r, ['a'], state='xyz')` sends `state=None` | send the caller's state so the server can echo it back (RFC 6749 section 4.1.1) | high, not executed | `Auth.StateValueDropped` | `Auth.AuthorizationUrl` |
| microsoftgraph/decorators.py:10 | the guard checks `client.token` even in office365 mode, where `set_token` writes `office365_token` | `Client(i, s, office365=True)`, then `set_token({'access_token': 'x'})`, then `get_me()` raises `TokenRequired` | check the slot the `office365` flag selects, the one `_request` reads | high, not executed | `Decorators.Office365GuardRefusesForever` | `Decorators.Guard` |

The operations of `Transport`, `Auth`, `Mail` and `Endpoints` follow the code
as written: `Parsing.ParseAsWritten` and `Decorators.GuardAsWritten`. The
corrected `Parsing.Parse`, `Decorators.Guard` and `Auth.AuthorizationUrl` stand
beside them. `Transport.PerformCorrected` and `Endpoints.GetMeCorrected` show
the guard and parse corrections applied end to end.

=== FILE: auth.dfy ===
/** The OAuth 2.0 half of the client: the authorization URL of the
    authorization-code grant (section 4.1.1 of RFC 6749) and the two token
    requests, code exchange (section 4.1.3) and refresh (section 6). Both
    families of endpoints, the Microsoft identity platform and Live, are
    chosen by the client's `office365` flag. */
module Auth {
  import opened Wrappers
  import opened Text
  import opened Exceptions
  import opened Http
  import opened ClientState
  import opened Parsing
  import opened Transport

  /** A query-string value before percent-encoding: a string, or Python's
      `None` (which `urlencode` writes as the text `None`). */
  datatype QueryValue = Str(s: string) | PyNone

  /** An authorization URL: the endpoint prefix and the query parameters
      appended to it. */
  datatype AuthUrl = AuthUrl(endpoint: string, query: map<string, QueryValue>)

  /** The authority both endpoints of a client live under. */
  function Authority(c: Client): string
  {
    if c.office365 then Office365AuthorityUrl else AuthorityUrl + c.accountType
  }

  /** The prefix `authorization_url` puts in front of the query string. */
  function AuthorizeUrl(c: Client): (u: string)
    ensures u == Authority(c) + (if c.office365 then Office365AuthEndpoint else AuthEndpoint)
  {
    if c.office365 then Office365AuthorityUrl + Office365AuthEndpoint
    else AuthorityUrl + c.accountType + AuthEndpoint
  }

  /** The URL `exchange_code` and `refresh_token` post to. */
  function TokenUrl(c: Client): (u: string)
    ensures u == Authority(c) + (if c.office365 then Office365TokenEndpoint else TokenEndpoint)
  {
    if c.office365 then Office365AuthorityUrl + Office365TokenEndpoint
    else AuthorityUrl + c.accountType + TokenEndpoint
  }

  /** The authorization and token endpoints of one client share their
      authority: the flag never mixes the two families. */
  lemma EndpointsShareAuthority(c: Client)
    ensures AuthorizeUrl(c)[..|Authority(c)|] == Authority(c)
    ensures TokenUrl(c)[..|Authority(c)|] == Authority(c)
    ensures c.office365 ==> AuthorizeUrl(c) == "https://login.live.com/oauth20_authorize.srf?"
    ensures c.office365 ==> TokenUrl(c) == "https://login.live.com/oauth20_token.srf"
    ensures !c.office365 ==> AuthorizeUrl(c) == "https://login.microsoftonline.com/" + c.accountType + "/oauth2/v2.0/authorize?"
    ensures !c.office365 ==> TokenUrl(c) == "https://login.microsoftonline.com/" + c.accountType + "/oauth2/v2.0/token"
  {
    if c.office365 {
      assert Authority(c) == Office365AuthorityUrl;
    } else {
      assert Authority(c) == AuthorityUrl + c.accountType;
    }
  }

  /** Python truthiness of the `state` argument. */
  predicate StateGiven(state: Option<string>)
  {
    state.Some? && state.value != ""
  }

  /** The parameters section 4.1.1 of RFC 6749 requires of an authorization
      request for an authorization code, with the client's scopes. */
  ghost predicate IsCodeAuthorizationRequest(q: map<string, QueryValue>, clientId: string, redirectUri: string, scope: string)
  {
    && "response_type" in q && q["response_type"] == Str("code")
    && "client_id" in q && q["client_id"] == Str(clientId)
    && "redirect_uri" in q && q["redirect_uri"] == Str(redirectUri)
    && "scope" in q && q["scope"] == Str(scope)
  }

  /** `authorization_url` as written: a truthy `state` adds the key `state`,
      but with the value `None` instead of the caller's value. */
  function AuthorizationUrlAsWritten(c: Client, redirectUri: string, scope: seq<string>, state: Option<string>): (u: AuthUrl)
    ensures u.endpoint == AuthorizeUrl(c)
    ensures IsCodeAuthorizationRequest(u.query, c.clientId, redirectUri, JoinSpaces(scope))
    ensures "response_mode" in u.query && u.query["response_mode"] == Str("query")
    ensures u.query.Keys == {"client_id", "redirect_uri", "scope", "response_type", "response_mode"}
                            + (if StateGiven(state) then {"state"} else {})
    ensures "state" in u.query ==> u.query["state"] == PyNone
  {
    var params := map[
      "client_id" := Str(c.clientId),
      "redirect_uri" := Str(redirectUri),
      "scope" := Str(JoinSpaces(scope)),
      "response_type" := Str("code"),
      "response_mode" := Str("query")];
    var params := if StateGiven(state) then params["state" := PyNone] else params;
    AuthUrl(AuthorizeUrl(c), params)
  }

  /** The caller's state never reaches the URL as written: for any state at
      all, the query carries `None` or nothing. */
  lemma StateValueDropped(c: Client, redirectUri: string, scope: seq<string>, state: string)
    requires state != ""
    ensures AuthorizationUrlAsWritten(c, redirectUri, scope, Some(state)).query["state"] != Str(state)
  {
  }

  /** `authorization_url` as evidently intended: a truthy `state` is sent as
      given, so that the authorization server can echo it back as section
      4.1.2 of RFC 6749 requires. */
  function AuthorizationUrl(c: Client, redirectUri: string, scope: seq<string>, state: Option<string>): (u: AuthUrl)
    ensures u.endpoint == AuthorizeUrl(c)
    ensures IsCodeAuthorizationRequest(u.query, c.clientId, redirectUri, JoinSpaces(scope))
    ensures "response_mode" in u.query && u.query["response_mode"] == Str("query")
    ensures "state" in u.query <==> StateGiven(state)
    ensures StateGiven(state) ==> u.query["state"] == Str(state.value)
    ensures u.query - {"state"} == AuthorizationUrlAsWritten(c, redirectUri, scope, state).query - {"state"}
  {
    var written := AuthorizationUrlAsWritten(c, redirectUri, scope, state);
    if StateGiven(state) then AuthUrl(written.endpoint, written.query["state" := Str(state.value)])
    else written
  }

  /** The scopes can be read back from the URL: splitting the `scope` value on
      spaces gives the caller's list, provided it is non-empty and no scope
      contains a space. */
  lemma ScopesRecoverable(c: Client, redirectUri: string, scope: seq<string>, state: Option<string>)
    requires |scope| >= 1 && NoSpaces(scope)
    ensures SplitSpaces(AuthorizationUrlAsWritten(c, redirectUri, scope, state).query["scope"].s) == scope
    ensures SplitSpaces(AuthorizationUrl(c, redirectUri, scope, state).query["scope"].s) == scope
  {
    SplitJoinRoundTrip(scope);
  }

  /** Client credentials in the request body, section 2.3.1 of RFC 6749. */
  ghost predicate HasClientCredentials(form: map<string, string>, c: Client)
  {
    && "client_id" in form && form["client_id"] == c.clientId
    && "client_secret" in form && form["client_secret"] == c.clientSecret
  }

  /** An access token request for an authorization code, section 4.1.3 of RFC 6749. */
  ghost predicate IsCodeTokenRequest(form: map<string, string>, redirectUri: string, code: string)
  {
    && "grant_type" in form && form["grant_type"] == "authorization_code"
    && "code" in form && form["code"] == code
    && "redirect_uri" in form && form["redirect_uri"] == redirectUri
  }

  /** A refresh request, section 6 of RFC 6749. */
  ghost predicate IsRefreshRequest(form: map<string, string>, refreshToken: string)
  {
    && "grant_type" in form && form["grant_type"] == "refresh_token"
    && "refresh_token" in form && form["refresh_token"] == refreshToken
  }

  /** The POST `exchange_code` sends: form data only, to the token endpoint
      of the client's family, with no bearer token. */
  function ExchangeCodeRequest(c: Client, redirectUri: string, code: string): (req: HttpRequest)
    ensures req.verb == POST && req.url == TokenUrl(c) && req.headers == map[]
    ensures req.args.json.None? && req.args.params.None? && req.args.files.None?
    ensures req.args.data.Some?
    ensures req.args.data.value.Keys == {"client_id", "redirect_uri", "client_secret", "code", "grant_type"}
    ensures IsCodeTokenRequest(req.args.data.value, redirectUri, code)
    ensures HasClientCredentials(req.args.data.value, c)
  {
    var data := map[
      "client_id" := c.clientId,
      "redirect_uri" := redirectUri,
      "client_secret" := c.clientSecret,
      "code" := code,
      "grant_type" := "authorization_code"];
    HttpRequest(POST, TokenUrl(c), map[], RequestArgs(None, None, Some(data), None))
  }

  /** The POST `refresh_token` sends: as for the code exchange, with the
      refresh token and the refresh grant in place of the code. */
  function RefreshTokenRequest(c: Client, redirectUri: string, refreshToken: string): (req: HttpRequest)
    ensures req.verb == POST && req.url == TokenUrl(c) && req.headers == map[]
    ensures req.args.json.None? && req.args.params.None? && req.args.files.None?
    ensures req.args.data.Some?
    ensures req.args.data.value.Keys == {"client_id", "redirect_uri", "client_secret", "refresh_token", "grant_type"}
    ensures IsRefreshRequest(req.args.data.value, refreshToken)
    ensures HasClientCredentials(req.args.data.value, c)
    ensures req.args.data.value["redirect_uri"] == redirectUri
  {
    var data := map[
      "client_id" := c.clientId,
      "redirect_uri" := redirectUri,
      "client_secret" := c.clientSecret,
      "refresh_token" := refreshToken,
      "grant_type" := "refresh_token"];
    HttpRequest(POST, TokenUrl(c), map[], RequestArgs(None, None, Some(data), None))
  }

  /** `exchange_code`: not guarded, so it works on a client without a token;
      the token endpoint's answer is parsed like any other response. */
  function ExchangeCode(c: Client, redirectUri: string, code: string, send: Network): (o: Outcome)
    ensures o.Raised? ==> !o.fault.TokenRequired? && !o.fault.NoTokenSet?
    ensures o == ParseAsWritten(send(ExchangeCodeRequest(c, redirectUri, code)))
  {
    Perform(Success(ExchangeCodeRequest(c, redirectUri, code)), send)
  }

  /** `refresh_token`: as `exchange_code`, with the refresh request. */
  function RefreshToken(c: Client, redirectUri: string, refreshToken: string, send: Network): (o: Outcome)
    ensures o.Raised? ==> !o.fault.TokenRequired? && !o.fault.NoTokenSet?
    ensures o == ParseAsWritten(send(RefreshTokenRequest(c, redirectUri, refreshToken)))
  {
    Perform(Success(RefreshTokenRequest(c, redirectUri, refreshToken)), send)
  }

  /** The two token requests of one client go to the same endpoint with the
      same credentials and differ in their grant. */
  lemma TokenRequestsDifferOnlyInGrant(c: Client, redirectUri: string, code: string, refreshToken: string)
    ensures ExchangeCodeRequest(c, redirectUri, code).url == RefreshTokenRequest(c, redirectUri, refreshToken).url
    ensures ExchangeCodeRequest(c, redirectUri, code).args.data.value - {"code", "grant_type"}
            == RefreshTokenRequest(c, redirectUri, refreshToken).args.data.value - {"refresh_token", "grant_type"}
    ensures ExchangeCodeRequest(c, redirectUri, code).args.data.value["grant_type"]
            != RefreshTokenRequest(c, redirectUri, refreshToken).args.data.value["grant_type"]
  {
  }
}

=== FILE: client_state.dfy ===
/** The client object of `microsoftgraph/client.py`: its configuration, its
    two token slots, and the one operation that changes it, `set_token`. */
module ClientState {
  import opened Wrappers

  /** A token as the identity platform returns it: a mapping that holds, among
      others, the bearer credential under `access_token`. */
  type Token = map<string, string>

  const AuthorityUrl := "https://login.microsoftonline.com/"
  const AuthEndpoint := "/oauth2/v2.0/authorize?"
  const TokenEndpoint := "/oauth2/v2.0/token"
  const Resource := "https://graph.microsoft.com/"
  const Office365AuthorityUrl := "https://login.live.com"
  const Office365AuthEndpoint := "/oauth20_authorize.srf?"
  const Office365TokenEndpoint := "/oauth20_token.srf"

  const DefaultApiVersion := "v1.0"
  const DefaultAccountType := "common"

  /** The client: configuration fixed at construction, plus two token slots.
      The `office365` flag selects which slot `set_token` writes and which
      one `_request` reads the bearer credential from. */
  datatype Client = Client(
    clientId: string,
    clientSecret: string,
    apiVersion: string,
    accountType: string,
    office365: bool,
    token: Option<Token>,
    office365Token: Option<Token>)
  {
    /** The versioned API root: the Graph resource URL, the API version and
        a closing slash. */
    function BaseUrl(): (url: string)
      ensures |url| == |Resource| + |apiVersion| + 1
      ensures url[..|Resource|] == Resource
      ensures url[|Resource|..|url| - 1] == apiVersion
      ensures url[|url| - 1] == '/'
    {
      Resource + apiVersion + "/"
    }

    /** The slot the `office365` flag selects. */
    function ActiveToken(): Option<Token>
    {
      if office365 then office365Token else token
    }

    /** The slot the `office365` flag does not select. */
    function IdleToken(): Option<Token>
    {
      if office365 then token else office365Token
    }
  }

  /** Python truthiness of a token slot: `None` and the empty mapping are false. */
  predicate Truthy(t: Option<Token>)
  {
    t.Some? && |t.value| > 0
  }

  /** Everything but the token slots agrees. */
  predicate SameConfiguration(a: Client, b: Client)
  {
    && a.clientId == b.clientId
    && a.clientSecret == b.clientSecret
    && a.apiVersion == b.apiVersion
    && a.accountType == b.accountType
    && a.office365 == b.office365
  }

  /** `Client.__init__`: a fresh client holds no token in either slot. */
  function NewClient(
    clientId: string,
    clientSecret: string,
    apiVersion: string := DefaultApiVersion,
    accountType: string := DefaultAccountType,
    office365: bool := false): (c: Client)
    ensures c.clientId == clientId && c.clientSecret == clientSecret
    ensures c.apiVersion == apiVersion && c.accountType == accountType && c.office365 == office365
    ensures c.ActiveToken() == None && c.IdleToken() == None
    ensures !Truthy(c.token) && !Truthy(c.office365Token)
  {
    Client(clientId, clientSecret, apiVersion, accountType, office365, None, None)
  }

  /** `Client.set_token`: writes the slot the flag selects and nothing else. */
  function SetToken(c: Client, t: Option<Token>): (r: Client)
    ensures r.ActiveToken() == t
    ensures r.IdleToken() == c.IdleToken()
    ensures SameConfiguration(r, c)
  {
    if c.office365 then c.(office365Token := t) else c.(token := t)
  }

  /** A run of `set_token` calls, in order. */
  function SetTokens(c: Client, ts: seq<Option<Token>>): Client
    decreases |ts|
  {
    if |ts| == 0 then c else SetTokens(SetToken(c, ts[0]), ts[1..])
  }

  /** After any run of `set_token` calls, the configuration and the idle slot
      are those of the start, and the active slot holds the last token set. */
  lemma {:induction false} SetTokensEffect(c: Client, ts: seq<Option<Token>>)
    ensures SameConfiguration(SetTokens(c, ts), c)
    ensures SetTokens(c, ts).IdleToken() == c.IdleToken()
    ensures SetTokens(c, ts).ActiveToken() == if |ts| == 0 then c.ActiveToken() else ts[|ts| - 1]
    decreases |ts|
  {
    if |ts| > 0 {
      SetTokensEffect(SetToken(c, ts[0]), ts[1..]);
    }
  }

  /** Setting twice is setting the second token: the first leaves no trace. */
  lemma LastSetTokenWins(c: Client, a: Option<Token>, b: Option<Token>)
    ensures SetToken(SetToken(c, a), b) == SetToken(c, b)
  {
  }
}

=== FILE: decorators.dfy ===
/** The `token_required` decorator of `microsoftgraph/decorators.py`: it
    looks at the client a call is made on and either refuses the call or
    hands it, unchanged, to the wrapped operation. The wrapped operation is
    modelled as a function of the client that plans the call. */
module Decorators {
  import opened Wrappers
  import opened Exceptions
  import opened ClientState

  const TokenRequiredMessage := "You must set the Token."

  /** The guard as written: it inspects `client.token` only, whatever the
      `office365` flag says. */
  function GuardAsWritten<T>(c: Client, wrapped: Client -> Result<T, Fault>): (r: Result<T, Fault>)
    ensures !Truthy(c.token) ==> r == Failure(TokenRequired(TokenRequiredMessage))
    ensures Truthy(c.token) ==> r == wrapped(c)
  {
    if !Truthy(c.token) then Failure(TokenRequired(TokenRequiredMessage)) else wrapped(c)
  }

  /** The decision reads `token` and nothing else: two clients that agree on
      `token` are both refused or both passed on, whatever their other slot,
      flag or configuration. */
  lemma GuardReadsOnlyToken<T>(c1: Client, c2: Client, w1: Client -> Result<T, Fault>, w2: Client -> Result<T, Fault>)
    requires c1.token == c2.token
    ensures || (GuardAsWritten(c1, w1) == Failure(TokenRequired(TokenRequiredMessage))
                && GuardAsWritten(c2, w2) == Failure(TokenRequired(TokenRequiredMessage)))
            || (GuardAsWritten(c1, w1) == w1(c1) && GuardAsWritten(c2, w2) == w2(c2))
  {
  }

  /** In office365 mode `set_token` writes `office365_token` and `token` stays
      `None`, so after any run of `set_token` calls every guarded call is
      refused. */
  lemma Office365GuardRefusesForever<T>(
    clientId: string, clientSecret: string, apiVersion: string, accountType: string,
    ts: seq<Option<Token>>, wrapped: Client -> Result<T, Fault>)
    ensures GuardAsWritten(SetTokens(NewClient(clientId, clientSecret, apiVersion, accountType, true), ts), wrapped)
            == Failure(TokenRequired(TokenRequiredMessage))
  {
    SetTokensEffect(NewClient(clientId, clientSecret, apiVersion, accountType, true), ts);
  }

  /** The guard as evidently intended: it inspects the slot that `set_token`
      writes and `_request` reads, the one the `office365` flag selects. */
  function Guard<T>(c: Client, wrapped: Client -> Result<T, Fault>): (r: Result<T, Fault>)
    ensures !Truthy(c.ActiveToken()) ==> r == Failure(TokenRequired(TokenRequiredMessage))
    ensures Truthy(c.ActiveToken()) ==> r == wrapped(c)
  {
    if !Truthy(if c.office365 then c.office365Token else c.token) then
      Failure(TokenRequired(TokenRequiredMessage))
    else
      wrapped(c)
  }

  /** Once a non-empty token is set, in either mode, the call goes through to
      the wrapped operation on the very client it was made on. */
  lemma GuardAdmitsAfterSetToken<T>(c: Client, t: Token, wrapped: Client -> Result<T, Fault>)
    requires |t| > 0
    ensures Guard(SetToken(c, Some(t)), wrapped) == wrapped(SetToken(c, Some(t)))
  {
  }

  /** Outside office365 mode the corrected guard is the written one. */
  lemma GuardAgreesOutsideOffice365<T>(c: Client, wrapped: Client -> Result<T, Fault>)
    requires !c.office365
    ensures Guard(c, wrapped) == GuardAsWritten(c, wrapped)
  {
  }
}

=== FILE: endpoints.dfy ===
/** Two of the guarded endpoint wrappers, each the `token_required` guard
    around one `_request`: `get_me`, a GET with the JSON content type, and
    `create_page`, a multipart POST that must leave the content type to the
    transport. `get_me` is also given with the corrected guard and parse, to
    show the two corrections end to end. */
module Endpoints {
  import opened Wrappers
  import opened Exceptions
  import opened Http
  import opened ClientState
  import opened Parsing
  import opened Decorators
  import opened Transport

  /** The GET `get_me` makes once it is past its guard. */
  function GetMeRequest(c: Client, params: Option<map<string, string>>): Result<HttpRequest, Fault>
  {
    PlanRequest(c, GET, c.BaseUrl() + "me", map[], RequestArgs(None, params, None, None))
  }

  /** The request `get_me` sends, or the exception it raises first: the guard
      looks at `token` only, and `_request` then reads the slot the flag
      selects, which fails when that slot is `None`. */
  function PlanGetMe(c: Client, params: Option<map<string, string>> := None): (r: Result<HttpRequest, Fault>)
    ensures !Truthy(c.token) ==> r == Failure(TokenRequired(TokenRequiredMessage))
    ensures Truthy(c.token) && c.ActiveToken().None? ==> r == Failure(NoTokenSet)
    ensures Truthy(c.token) && c.ActiveToken().Some? && AccessTokenKey !in c.ActiveToken().value ==>
              r == Failure(MissingKey(AccessTokenKey))
    ensures Truthy(c.token) && c.ActiveToken().Some? && AccessTokenKey in c.ActiveToken().value ==> r.Success?
    ensures Truthy(c.token) ==> r == PlanRequest(c, GET, c.BaseUrl() + "me", map[], RequestArgs(None, params, None, None))
    ensures r.Success? ==>
              && AuthorizationHeader in r.value.headers
              && r.value.headers[AuthorizationHeader] == BearerPrefix + c.ActiveToken().value[AccessTokenKey]
              && AcceptHeader in r.value.headers
              && r.value.headers[AcceptHeader] == JsonMediaType
    ensures r.Success? ==>
              && r.value.verb == GET
              && r.value.url == Resource + c.apiVersion + "/me"
              && r.value.args.params == params
              && ContentTypeHeader in r.value.headers
              && r.value.headers[ContentTypeHeader] == JsonMediaType
  {
    GuardAsWritten(c, (client: Client) => GetMeRequest(client, params))
  }

  /** `Client.get_me`. */
  function GetMe(c: Client, send: Network, params: Option<map<string, string>> := None): (o: Outcome)
    ensures !Truthy(c.token) ==> o == Raised(TokenRequired(TokenRequiredMessage))
    ensures PlanGetMe(c, params).Failure? ==> o == Raised(PlanGetMe(c, params).error)
    ensures PlanGetMe(c, params).Success? ==> o == ParseAsWritten(send(PlanGetMe(c, params).value))
  {
    Perform(PlanGetMe(c, params), send)
  }

  /** `get_me` with the corrected guard and the corrected `_parse`: the guard
      looks at the slot the flag selects, and a 204 answer is `None`. */
  function GetMeCorrected(c: Client, send: Network, params: Option<map<string, string>> := None): (o: Outcome)
    ensures !Truthy(c.ActiveToken()) ==> o == Raised(TokenRequired(TokenRequiredMessage))
    ensures Truthy(c.ActiveToken()) ==> o == PerformCorrected(GetMeRequest(c, params), send)
    ensures Truthy(c.ActiveToken()) && AccessTokenKey !in c.ActiveToken().value ==>
              o == Raised(MissingKey(AccessTokenKey))
    ensures Truthy(c.ActiveToken()) && AccessTokenKey in c.ActiveToken().value ==>
              o == Parse(send(GetMeRequest(c, params).value))
  {
    PerformCorrected(Guard(c, (client: Client) => GetMeRequest(client, params)), send)
  }

  /** The office365 client of the guard finding: once a token with an
      `access_token` is set, the written `get_me` still raises
      `TokenRequired`, while the corrected one sends its GET. */
  lemma Office365GetMeDiverges(clientId: string, clientSecret: string, t: Token, send: Network)
    requires AccessTokenKey in t
    ensures var c := SetToken(NewClient(clientId, clientSecret, DefaultApiVersion, DefaultAccountType, true), Some(t));
            && GetMe(c, send) == Raised(TokenRequired(TokenRequiredMessage))
            && GetMeCorrected(c, send) == Parse(send(GetMeRequest(c, None).value))
  {
  }

  /** The request `create_page` sends. The `files` keyword is always passed,
      so no `Content-Type` is forced and the multipart encoder of the
      transport picks it. */
  function PlanCreatePage(c: Client, sectionId: string, files: FileParts): (r: Result<HttpRequest, Fault>)
    ensures !Truthy(c.token) ==> r == Failure(TokenRequired(TokenRequiredMessage))
    ensures Truthy(c.token) && c.ActiveToken().None? ==> r == Failure(NoTokenSet)
    ensures Truthy(c.token) && c.ActiveToken().Some? && AccessTokenKey !in c.ActiveToken().value ==>
              r == Failure(MissingKey(AccessTokenKey))
    ensures Truthy(c.token) && c.ActiveToken().Some? && AccessTokenKey in c.ActiveToken().value ==> r.Success?
    ensures Truthy(c.token) ==>
              r == PlanRequest(c, POST, c.BaseUrl() + "/me/onenote/sections/" + sectionId + "/pages", map[],
                               RequestArgs(None, None, None, Some(files)))
    ensures r.Success? ==>
              && AuthorizationHeader in r.value.headers
              && r.value.headers[AuthorizationHeader] == BearerPrefix + c.ActiveToken().value[AccessTokenKey]
              && AcceptHeader in r.value.headers
              && r.value.headers[AcceptHeader] == JsonMediaType
    ensures r.Success? ==>
              && r.value.verb == POST
              && r.value.url == c.BaseUrl() + "/me/onenote/sections/" + sectionId + "/pages"
              && r.value.args.files == Some(files)
              && ContentTypeHeader !in r.value.headers
  {
    GuardAsWritten(c, (client: Client) =>
      PlanRequest(client, POST, client.BaseUrl() + "/me/onenote/sections/" + sectionId + "/pages", map[],
                  RequestArgs(None, None, None, Some(files))))
  }

  /** `Client.create_page`. */
  function CreatePage(c: Client, sectionId: string, files: FileParts, send: Network): (o: Outcome)
    ensures !Truthy(c.token) ==> o == Raised(TokenRequired(TokenRequiredMessage))
    ensures PlanCreatePage(c, sectionId, files).Failure? ==>
              o == Raised(PlanCreatePage(c, sectionId, files).error)
    ensures PlanCreatePage(c, sectionId, files).Success? ==>
              o == ParseAsWritten(send(PlanCreatePage(c, sectionId, files).value))
  {
    Perform(PlanCreatePage(c, sectionId, files), send)
  }

  /** A fresh client cannot call a guarded endpoint: the call is refused
      before any request exists, so the network is never consulted. */
  lemma FreshClientMakesNoCall(clientId: string, clientSecret: string, office365: bool,
                               params: Option<map<string, string>>, send1: Network, send2: Network)
    ensures GetMe(NewClient(clientId, clientSecret, DefaultApiVersion, DefaultAccountType, office365), send1, params)
            == GetMe(NewClient(clientId, clientSecret, DefaultApiVersion, DefaultAccountType, office365), send2, params)
            == Raised(TokenRequired(TokenRequiredMessage))
  {
  }
}

=== FILE: exceptions.dfy ===
/** The exceptions a client call can raise, and the outcome of a call as the
    Python caller sees it: a returned value, a returned `None`, or a raised
    exception. */
module Exceptions {
  import opened JsonValues

  /** One kind per exception class that `_parse` raises for an HTTP status. */
  datatype ErrorKind =
    | BadRequest
    | Unauthorized
    | Forbidden
    | NotFound
    | MethodNotAllowed
    | NotAcceptable
    | Conflict
    | Gone
    | LengthRequired
    | PreconditionFailed
    | RequestEntityTooLarge
    | UnsupportedMediaType
    | RequestedRangeNotSatisfiable
    | UnprocessableEntity
    | TooManyRequests
    | InternalServerError
    | NotImplemented
    | ServiceUnavailable
    | GatewayTimeout
    | InsufficientStorage
    | BandwidthLimitExceeded
    | UnknownError

  datatype Fault =
      /** An HTTP error status, carrying the parsed response body. */
    | ApiError(kind: ErrorKind, body: Body)
      /** Raised by the `token_required` guard. */
    | TokenRequired(message: string)
      /** Raised by `send_mail` when a required argument is missing. */
    | ValueError(message: string)
      /** `KeyError`: a response header that `_parse` looks up is absent. */
    | MissingHeader(name: string)
      /** The JSON decoder rejected a body declared as JSON. */
    | UndecodableJson
      /** `TypeError`: `_request` subscripts a token slot that holds `None`. */
    | NoTokenSet
      /** `KeyError`: the token has no entry under the given key. */
    | MissingKey(key: string)

  datatype Outcome =
    | Returned(body: Body)
    | ReturnedNone
    | Raised(fault: Fault)
}

=== FILE: http.dfy ===
/** The HTTP exchange as the client sees it: the request it hands to the
    transport and the response it gets back. The transport itself is a
    parameter of every operation that talks to the network. */
module Http {
  import opened Wrappers
  import opened JsonValues

  datatype Method = GET | POST | PUT | PATCH | DELETE

  type Headers = map<string, string>

  /** Multipart file parts, as handed to the transport; their content is opaque. */
  type FileParts = map<string, string>

  /** The keyword arguments passed through to the transport. A field that is
      `Some` is a keyword that was passed. */
  datatype RequestArgs = RequestArgs(
    json: Option<Json>,
    params: Option<map<string, string>>,
    data: Option<map<string, string>>,
    files: Option<FileParts>)

  const NoArgs := RequestArgs(None, None, None, None)

  datatype HttpRequest = HttpRequest(verb: Method, url: string, headers: Headers, args: RequestArgs)

  /** A response: its status, its `Content-Type` header (None when absent),
      its raw text, and what the JSON decoder makes of that text (None when
      the decoder rejects it). */
  datatype Response = Response(status: int, contentType: Option<string>, text: string, decoded: Option<Json>)

  type Network = HttpRequest -> Response
}

=== FILE: json_values.dfy ===
/** Values of the JSON documents the client sends and receives. Decoding and
    encoding JSON text is done by a library outside the model; only the
    decoded tree is represented. */
module JsonValues {

  datatype Json =
    | JNull
    | JBool(b: bool)
    | JNumber(n: int)
    | JString(s: string)
    | JArray(items: seq<Json>)
    | JObject(fields: map<string, Json>)

  /** What `_parse` hands back for a response: the decoded JSON document when
      the response declares a JSON media type, the raw text otherwise. */
  datatype Body = Structured(json: Json) | Text(text: string)
}

=== FILE: mail.dfy ===
/** `Client.send_mail`: argument check, the JSON message the Graph
    `sendMail` action expects, and the guarded POST that carries it. Reading
    attachment files, base64-encoding them and guessing their media type
    are calls outside the model, passed in as a `FileAccess`. */
module Mail {
  import opened Wrappers
  import opened JsonValues
  import opened Exceptions
  import opened Http
  import opened ClientState
  import opened Parsing
  import opened Decorators
  import opened Transport

  const SendMailPath := "me/microsoft.graph.sendMail"
  const MissingArgumentsMessage := "sendmail(): required arguments missing"
  const FileAttachmentType := "#microsoft.graph.fileAttachment"

  /** The file-system and library calls `send_mail` makes per attachment:
      the base64 text of a file's bytes, and the guessed media type of a
      file name. */
  datatype FileAccess = FileAccess(base64Content: string -> string, guessType: string -> Option<string>)

  function RecipientEntry(address: string): Json
  {
    JObject(map["EmailAddress" := JObject(map["Address" := JString(address)])])
  }

  /** The `ToRecipients` list: one entry per address, in the caller's order. */
  function RecipientList(addresses: seq<string>): (entries: seq<Json>)
    ensures |entries| == |addresses|
    ensures forall i :: 0 <= i < |addresses| ==> entries[i] == RecipientEntry(addresses[i])
  {
    if |addresses| == 0 then [] else [RecipientEntry(addresses[0])] + RecipientList(addresses[1..])
  }

  /** The guessed media type of an attachment, or the empty string when
      none is guessed. */
  function MediaTypeOrEmpty(guess: Option<string>): (t: string)
    ensures guess.Some? ==> t == guess.value
    ensures guess.None? ==> t == ""
  {
    match guess
    case Some(m) => m
    case None => ""
  }

  function AttachmentEntry(filename: string, files: FileAccess): Json
  {
    JObject(map[
      "@odata.type" := JString(FileAttachmentType),
      "ContentBytes" := JString(files.base64Content(filename)),
      "ContentType" := JString(MediaTypeOrEmpty(files.guessType(filename))),
      "Name" := JString(filename)])
  }

  /** The `Attachments` list: one file attachment per file name, in order. */
  function AttachmentList(filenames: seq<string>, files: FileAccess): (entries: seq<Json>)
    ensures |entries| == |filenames|
    ensures forall i :: 0 <= i < |filenames| ==> entries[i] == AttachmentEntry(filenames[i], files)
  {
    if |filenames| == 0 then [] else [AttachmentEntry(filenames[0], files)] + AttachmentList(filenames[1..], files)
  }

  /** The field `key` of a JSON object, if it is one and has that field. */
  function Lookup(j: Json, key: string): Option<Json>
  {
    if j.JObject? && key in j.fields then Some(j.fields[key]) else None
  }

  /** The string at `key` of a JSON object. */
  function StringAt(j: Json, key: string): Option<string>
  {
    match Lookup(j, key)
    case Some(JString(s)) => Some(s)
    case _ => None
  }

  /** Reads one string out of every entry of a list, failing if any entry
      lacks it. */
  function ReadAll(entries: seq<Json>, read: Json -> Option<string>): Option<seq<string>>
  {
    if |entries| == 0 then Some([])
    else match (read(entries[0]), ReadAll(entries[1..], read))
      case (Some(x), Some(rest)) => Some([x] + rest)
      case _ => None
  }

  lemma {:induction false} ReadAllPointwise(entries: seq<Json>, read: Json -> Option<string>, xs: seq<string>)
    requires |entries| == |xs|
    requires forall i :: 0 <= i < |xs| ==> read(entries[i]) == Some(xs[i])
    ensures ReadAll(entries, read) == Some(xs)
    decreases |xs|
  {
    if |xs| > 0 {
      ReadAllPointwise(entries[1..], read, xs[1..]);
      assert [xs[0]] + xs[1..] == xs;
    }
  }

  function AddressOf(entry: Json): Option<string>
  {
    match Lookup(entry, "EmailAddress")
    case Some(e) => StringAt(e, "Address")
    case None => None
  }

  function NameOf(entry: Json): Option<string>
  {
    StringAt(entry, "Name")
  }

  /** The addresses a `sendMail` message is addressed to, read back out of it. */
  function Recipients(msg: Json): Option<seq<string>>
  {
    match Lookup(msg, "Message")
    case Some(m) =>
      (match Lookup(m, "ToRecipients")
       case Some(JArray(items)) => ReadAll(items, AddressOf)
       case _ => None)
    case None => None
  }

  /** The file names a `sendMail` message attaches, read back out of it. */
  function AttachmentNames(msg: Json): Option<seq<string>>
  {
    match Lookup(msg, "Message")
    case Some(m) =>
      (match Lookup(m, "Attachments")
       case Some(JArray(items)) => ReadAll(items, NameOf)
       case _ => None)
    case None => None
  }

  /** The `Message` object of a `sendMail` request. */
  function MessageContent(subject: string, recipients: seq<string>, body: string, contentType: string,
                          attachments: seq<string>, files: FileAccess): (message: Json)
    ensures Lookup(message, "ToRecipients") == Some(JArray(RecipientList(recipients)))
    ensures Lookup(message, "Attachments") == Some(JArray(AttachmentList(attachments, files)))
    ensures StringAt(message, "Subject") == Some(subject)
    ensures Lookup(message, "Body") == Some(JObject(map["ContentType" := JString(contentType), "Content" := JString(body)]))
    ensures message.JObject? && message.fields.Keys == {"Subject", "Body", "ToRecipients", "Attachments"}
  {
    JObject(map[
      "Subject" := JString(subject),
      "Body" := JObject(map["ContentType" := JString(contentType), "Content" := JString(body)]),
      "ToRecipients" := JArray(RecipientList(recipients)),
      "Attachments" := JArray(AttachmentList(attachments, files))])
  }

  /** The message `send_mail` posts: the message proper, and the request to
      save the mail to Sent Items. */
  function EmailMessage(subject: string, recipients: seq<string>, body: string, contentType: string,
                        attachments: seq<string>, files: FileAccess): (msg: Json)
    ensures msg.JObject? && msg.fields.Keys == {"Message", "SaveToSentItems"}
    ensures msg.fields["SaveToSentItems"] == JString("true")
    ensures Lookup(msg, "Message") == Some(MessageContent(subject, recipients, body, contentType, attachments, files))
  {
    JObject(map[
      "Message" := MessageContent(subject, recipients, body, contentType, attachments, files),
      "SaveToSentItems" := JString("true")])
  }

  lemma RecipientEntryReadsBack(address: string)
    ensures AddressOf(RecipientEntry(address)) == Some(address)
  {
    assert Lookup(RecipientEntry(address), "EmailAddress") == Some(JObject(map["Address" := JString(address)]));
  }

  lemma AttachmentEntryReadsBack(filename: string, files: FileAccess)
    ensures NameOf(AttachmentEntry(filename, files)) == Some(filename)
  {
  }

  /** The recipients and attachment names of the message read back as
      exactly the caller's lists, in the caller's order. */
  lemma EmailMessageReadsBack(subject: string, recipients: seq<string>, body: string, contentType: string,
                              attachments: seq<string>, files: FileAccess)
    ensures Recipients(EmailMessage(subject, recipients, body, contentType, attachments, files)) == Some(recipients)
    ensures AttachmentNames(EmailMessage(subject, recipients, body, contentType, attachments, files)) == Some(attachments)
  {
    var toRecipients := RecipientList(recipients);
    var attached := AttachmentList(attachments, files);
    forall i | 0 <= i < |recipients| ensures AddressOf(toRecipients[i]) == Some(recipients[i]) {
      RecipientEntryReadsBack(recipients[i]);
    }
    forall i | 0 <= i < |attachments| ensures NameOf(attached[i]) == Some(attachments[i]) {
      AttachmentEntryReadsBack(attachments[i], files);
    }
    ReadAllPointwise(toRecipients, AddressOf, recipients);
    ReadAllPointwise(attached, NameOf, attachments);
  }

  /** Every attachment entry is a file attachment carrying the encoded bytes
      of its file. */
  lemma AttachmentsAreFileAttachments(filenames: seq<string>, files: FileAccess, i: int)
    requires 0 <= i < |filenames|
    ensures StringAt(AttachmentList(filenames, files)[i], "@odata.type") == Some(FileAttachmentType)
    ensures StringAt(AttachmentList(filenames, files)[i], "ContentBytes") == Some(files.base64Content(filenames[i]))
  {
  }

  /** The POST `send_mail` makes, or the exception it raises first. The
      `token_required` guard runs first and looks at `token` only; then an
      empty subject or recipient list (Python's `None` included) is a
      `ValueError`; then `_request` reads the bearer credential from the slot
      the flag selects, which fails when that slot is `None`. */
  function PlanSendMail(c: Client, files: FileAccess, subject: string := "", recipients: seq<string> := [],
                        body: string := "", contentType: string := "HTML", attachments: seq<string> := []):
    (r: Result<HttpRequest, Fault>)
    ensures !Truthy(c.token) ==> r == Failure(TokenRequired(TokenRequiredMessage))
    ensures Truthy(c.token) && (subject == "" || |recipients| == 0) ==>
              r == Failure(ValueError(MissingArgumentsMessage))
    ensures Truthy(c.token) && subject != "" && |recipients| > 0 && c.ActiveToken().None? ==>
              r == Failure(NoTokenSet)
    ensures Truthy(c.token) && subject != "" && |recipients| > 0
            && c.ActiveToken().Some? && AccessTokenKey !in c.ActiveToken().value ==>
              r == Failure(MissingKey(AccessTokenKey))
    ensures Truthy(c.token) && subject != "" && |recipients| > 0
            && c.ActiveToken().Some? && AccessTokenKey in c.ActiveToken().value ==>
              r.Success?
    ensures Truthy(c.token) && subject != "" && |recipients| > 0 ==>
              r == PlanRequest(c, POST, c.BaseUrl() + SendMailPath, map[],
                               RequestArgs(Some(EmailMessage(subject, recipients, body, contentType, attachments, files)),
                                           None, None, None))
    ensures r.Success? ==>
              && AuthorizationHeader in r.value.headers
              && r.value.headers[AuthorizationHeader] == BearerPrefix + c.ActiveToken().value[AccessTokenKey]
              && AcceptHeader in r.value.headers
              && r.value.headers[AcceptHeader] == JsonMediaType
    ensures r.Success? ==>
              && r.value.verb == POST
              && r.value.url == c.BaseUrl() + SendMailPath
              && ContentTypeHeader in r.value.headers
              && r.value.headers[ContentTypeHeader] == JsonMediaType
              && r.value.args.json == Some(EmailMessage(subject, recipients, body, contentType, attachments, files))
              && Recipients(r.value.args.json.value) == Some(recipients)
              && AttachmentNames(r.value.args.json.value) == Some(attachments)
  {
    EmailMessageReadsBack(subject, recipients, body, contentType, attachments, files);
    GuardAsWritten(c, (client: Client) =>
      if subject == "" || |recipients| == 0 then Failure(ValueError(MissingArgumentsMessage))
      else
        var msg := EmailMessage(subject, recipients, body, contentType, attachments, files);
        PlanRequest(client, POST, client.BaseUrl() + SendMailPath, map[], RequestArgs(Some(msg), None, None, None)))
  }

  /** `Client.send_mail`. Without a token, or with a missing argument, it
      raises before any request is sent, whatever the network would answer;
      otherwise it returns what `_parse` makes of the answer to its POST. */
  function SendMail(c: Client, files: FileAccess, send: Network, subject: string := "", recipients: seq<string> := [],
                    body: string := "", contentType: string := "HTML", attachments: seq<string> := []): (o: Outcome)
    ensures !Truthy(c.token) ==> o == Raised(TokenRequired(TokenRequiredMessage))
    ensures Truthy(c.token) && (subject == "" || |recipients| == 0) ==>
              o == Raised(ValueError(MissingArgumentsMessage))
    ensures PlanSendMail(c, files, subject, recipients, body, contentType, attachments).Failure? ==>
              o == Raised(PlanSendMail(c, files, subject, recipients, body, contentType, attachments).error)
    ensures PlanSendMail(c, files, subject, recipients, body, contentType, attachments).Success? ==>
              o == ParseAsWritten(send(PlanSendMail(c, files, subject, recipients, body, contentType, attachments).value))
  {
    Perform(PlanSendMail(c, files, subject, recipients, body, contentType, attachments), send)
  }
}

=== FILE: parsing.dfy ===
/** `Client._parse`: classifies a response by its status code into exactly
    one outcome, after reading the body as JSON or text according to the
    response's `Content-Type`. */
module Parsing {
  import opened Wrappers
  import opened JsonValues
  import opened Text
  import opened Exceptions
  import opened Http

  const JsonMediaType := "application/json"
  const ContentTypeHeader := "Content-Type"

  const SuccessCodes: set<int> := {200, 201, 202}
  const NoContentCode := 204

  /** The status codes `_parse` maps to a named exception, and the exception. */
  const ErrorCodes: map<int, ErrorKind> := map[
    400 := BadRequest,
    401 := Unauthorized,
    403 := Forbidden,
    404 := NotFound,
    405 := MethodNotAllowed,
    406 := NotAcceptable,
    409 := Conflict,
    410 := Gone,
    411 := LengthRequired,
    412 := PreconditionFailed,
    413 := RequestEntityTooLarge,
    415 := UnsupportedMediaType,
    416 := RequestedRangeNotSatisfiable,
    422 := UnprocessableEntity,
    429 := TooManyRequests,
    500 := InternalServerError,
    501 := NotImplemented,
    503 := ServiceUnavailable,
    504 := GatewayTimeout,
    507 := InsufficientStorage,
    509 := BandwidthLimitExceeded]

  /** The status a named error kind stands for; the inverse of `ErrorCodes`. */
  function CodeOf(kind: ErrorKind): Option<int>
  {
    match kind
    case BadRequest => Some(400)
    case Unauthorized => Some(401)
    case Forbidden => Some(403)
    case NotFound => Some(404)
    case MethodNotAllowed => Some(405)
    case NotAcceptable => Some(406)
    case Conflict => Some(409)
    case Gone => Some(410)
    case LengthRequired => Some(411)
    case PreconditionFailed => Some(412)
    case RequestEntityTooLarge => Some(413)
    case UnsupportedMediaType => Some(415)
    case RequestedRangeNotSatisfiable => Some(416)
    case UnprocessableEntity => Some(422)
    case TooManyRequests => Some(429)
    case InternalServerError => Some(500)
    case NotImplemented => Some(501)
    case ServiceUnavailable => Some(503)
    case GatewayTimeout => Some(504)
    case InsufficientStorage => Some(507)
    case BandwidthLimitExceeded => Some(509)
    case UnknownError => None
  }

  /** Every mapped status gets its own kind: the kind names its status back,
      so no two statuses share a kind, and none of them is `UnknownError`. */
  lemma ErrorKindsDistinct()
    ensures forall s | s in ErrorCodes :: CodeOf(ErrorCodes[s]) == Some(s)
    ensures forall s1, s2 | s1 in ErrorCodes && s2 in ErrorCodes && s1 != s2 :: ErrorCodes[s1] != ErrorCodes[s2]
    ensures forall s | s in ErrorCodes :: ErrorCodes[s] != UnknownError
  {
    forall s | s in ErrorCodes ensures CodeOf(ErrorCodes[s]) == Some(s) {
    }
    forall s1, s2 | s1 in ErrorCodes && s2 in ErrorCodes && s1 != s2
      ensures ErrorCodes[s1] != ErrorCodes[s2]
    {
      assert CodeOf(ErrorCodes[s1]) == Some(s1);
      assert CodeOf(ErrorCodes[s2]) == Some(s2);
    }
  }

  /** The first half of `_parse`: look up `Content-Type` (a missing header is
      a `KeyError`), then decode JSON when the media type mentions
      `application/json`, and take the raw text otherwise. */
  function DecodeBody(resp: Response): (r: Result<Body, Fault>)
    ensures resp.contentType.None? ==> r == Failure(MissingHeader(ContentTypeHeader))
    ensures resp.contentType.Some? ==>
      if exists i: nat :: OccursAt(resp.contentType.value, JsonMediaType, i) then
        if resp.decoded.Some? then r == Success(Structured(resp.decoded.value))
        else r == Failure(UndecodableJson)
      else
        r == Success(Text(resp.text))
  {
    match resp.contentType
    case None => Failure(MissingHeader(ContentTypeHeader))
    case Some(ct) =>
      if Contains(ct, JsonMediaType) then
        match resp.decoded
        case Some(j) => Success(Structured(j))
        case None => Failure(UndecodableJson)
      else
        Success(Text(resp.text))
  }

  /** `_parse` exactly as written: the body is read before the status is
      looked at, so every status, 204 included, needs a `Content-Type`
      header and, under a JSON media type, a decodable body. */
  function ParseAsWritten(resp: Response): (o: Outcome)
    ensures DecodeBody(resp).Failure? ==> o == Raised(DecodeBody(resp).error)
    ensures DecodeBody(resp).Success? ==>
      var r := DecodeBody(resp).value;
      && (resp.status in SuccessCodes ==> o == Returned(r))
      && (resp.status == NoContentCode ==> o == ReturnedNone)
      && (resp.status in ErrorCodes ==> o == Raised(ApiError(ErrorCodes[resp.status], r)))
      && (resp.status !in SuccessCodes && resp.status != NoContentCode && resp.status !in ErrorCodes ==>
            o == Raised(ApiError(UnknownError, r)))
  {
    match DecodeBody(resp)
    case Failure(f) => Raised(f)
    case Success(r) =>
      var status := resp.status;
      if status in {200, 201, 202} then Returned(r)
      else if status == 204 then ReturnedNone
      else if status == 400 then Raised(ApiError(BadRequest, r))
      else if status == 401 then Raised(ApiError(Unauthorized, r))
      else if status == 403 then Raised(ApiError(Forbidden, r))
      else if status == 404 then Raised(ApiError(NotFound, r))
      else if status == 405 then Raised(ApiError(MethodNotAllowed, r))
      else if status == 406 then Raised(ApiError(NotAcceptable, r))
      else if status == 409 then Raised(ApiError(Conflict, r))
      else if status == 410 then Raised(ApiError(Gone, r))
      else if status == 411 then Raised(ApiError(LengthRequired, r))
      else if status == 412 then Raised(ApiError(PreconditionFailed, r))
      else if status == 413 then Raised(ApiError(RequestEntityTooLarge, r))
      else if status == 415 then Raised(ApiError(UnsupportedMediaType, r))
      else if status == 416 then Raised(ApiError(RequestedRangeNotSatisfiable, r))
      else if status == 422 then Raised(ApiError(UnprocessableEntity, r))
      else if status == 429 then Raised(ApiError(TooManyRequests, r))
      else if status == 500 then Raised(ApiError(InternalServerError, r))
      else if status == 501 then Raised(ApiError(NotImplemented, r))
      else if status == 503 then Raised(ApiError(ServiceUnavailable, r))
      else if status == 504 then Raised(ApiError(GatewayTimeout, r))
      else if status == 507 then Raised(ApiError(InsufficientStorage, r))
      else if status == 509 then Raised(ApiError(BandwidthLimitExceeded, r))
      else Raised(ApiError(UnknownError, r))
  }

  /** As written, a 204 response yields `None` exactly when its body could be
      read; one without a `Content-Type` header raises `KeyError`. */
  lemma NoContentAsWritten(resp: Response)
    requires resp.status == NoContentCode
    ensures ParseAsWritten(resp) == ReturnedNone <==> DecodeBody(resp).Success?
    ensures resp.contentType.None? ==> ParseAsWritten(resp) == Raised(MissingHeader(ContentTypeHeader))
  {
  }

  /** A concrete 204 without `Content-Type`, as servers commonly send it. */
  lemma NoContentWithoutContentTypeRaises()
    ensures ParseAsWritten(Response(204, None, "", None)) == Raised(MissingHeader(ContentTypeHeader))
  {
  }

  /** `_parse` with 204 checked before the body is read: a response without
      content returns `None` whatever its headers; every other status is
      classified as written. */
  function Parse(resp: Response): (o: Outcome)
    ensures resp.status == NoContentCode ==> o == ReturnedNone
    ensures resp.status != NoContentCode ==> o == ParseAsWritten(resp)
  {
    if resp.status == 204 then ReturnedNone else ParseAsWritten(resp)
  }

  /** Exactly one outcome class per status: two readable responses with the
      same status return alike or raise the same kind, and a 2xx success
      hands the body back unchanged. */
  lemma ClassifiedByStatusAlone(a: Response, b: Response)
    requires a.status == b.status
    requires DecodeBody(a).Success? && DecodeBody(b).Success?
    ensures Parse(a).Returned? <==> Parse(b).Returned?
    ensures Parse(a).ReturnedNone? <==> Parse(b).ReturnedNone?
    ensures Parse(a).Raised? <==> Parse(b).Raised?
    ensures Parse(a).Raised? ==> Parse(a).fault.ApiError? && Parse(a).fault.kind == Parse(b).fault.kind
    ensures Parse(a).Returned? ==> Parse(a).body == DecodeBody(a).value
  {
  }

  /** Distinct mapped statuses raise distinct kinds, each carrying its own body. */
  lemma DistinctStatusesDistinctErrors(a: Response, b: Response)
    requires a.status in ErrorCodes && b.status in ErrorCodes && a.status != b.status
    requires DecodeBody(a).Success? && DecodeBody(b).Success?
    ensures Parse(a).Raised? && Parse(b).Raised?
    ensures Parse(a).fault.kind != Parse(b).fault.kind
    ensures Parse(a).fault.body == DecodeBody(a).value
  {
    ErrorKindsDistinct();
  }
}

=== FILE: text.dfy ===
/** The two string operations of the client: Python's substring test
    `sub in s`, and `' '.join(parts)` with its inverse `s.split(' ')`. */
module Text {

  /** `sub` occurs in `s` starting at index `i`. */
  predicate OccursAt(s: string, sub: string, i: nat)
  {
    i + |sub| <= |s| && s[i..i + |sub|] == sub
  }

  lemma OccursAtShift(s: string, sub: string, i: nat)
    requires |s| > 0
    ensures OccursAt(s[1..], sub, i) <==> OccursAt(s, sub, i + 1)
  {
    if i + |sub| <= |s[1..]| {
      assert s[1..][i..i + |sub|] == s[i + 1..i + 1 + |sub|];
    }
  }

  /** Python's `sub in s`, scanning `s` from the left. */
  function Contains(s: string, sub: string): (r: bool)
    ensures r <==> exists i: nat :: OccursAt(s, sub, i)
    decreases |s|
  {
    if |s| < |sub| then
      false
    else if s[..|sub|] == sub then
      assert OccursAt(s, sub, 0);
      true
    else
      var r := Contains(s[1..], sub);
      assert r <==> exists i: nat :: OccursAt(s, sub, i) by {
        if r {
          var i: nat :| OccursAt(s[1..], sub, i);
          OccursAtShift(s, sub, i);
        } else {
          forall i: nat | OccursAt(s, sub, i) ensures false {
            assert i != 0;
            OccursAtShift(s, sub, i - 1);
          }
        }
      }
      r
  }

  /** The combined length of a list of strings. */
  function TotalLength(parts: seq<string>): nat
  {
    if |parts| == 0 then 0 else |parts[0]| + TotalLength(parts[1..])
  }

  /** Python's `' '.join(parts)`: the parts in order, one space between each
      two neighbours, so the result is as long as the parts together plus
      one less space than there are parts. */
  function JoinSpaces(parts: seq<string>): (r: string)
    ensures |parts| == 0 ==> r == ""
    ensures |parts| >= 1 ==> |r| == TotalLength(parts) + |parts| - 1
    ensures |parts| >= 1 ==> r[..|parts[0]|] == parts[0]
    ensures |parts| >= 2 ==> r[|parts[0]|] == ' '
  {
    if |parts| == 0 then ""
    else if |parts| == 1 then parts[0]
    else parts[0] + " " + JoinSpaces(parts[1..])
  }

  /** Python's `s.split(' ')`: cuts at every space and keeps empty pieces,
      so the result always has one piece more than `s` has spaces. */
  function SplitSpaces(s: string): (pieces: seq<string>)
    ensures |pieces| >= 1
    ensures forall k :: 0 <= k < |pieces| ==> ' ' !in pieces[k]
    decreases |s|
  {
    if |s| == 0 then [""]
    else if s[0] == ' ' then [""] + SplitSpaces(s[1..])
    else
      var rest := SplitSpaces(s[1..]);
      [[s[0]] + rest[0]] + rest[1..]
  }

  ghost predicate NoSpaces(parts: seq<string>)
  {
    forall k :: 0 <= k < |parts| ==> ' ' !in parts[k]
  }

  lemma {:induction false} SplitWithoutSpace(a: string)
    requires ' ' !in a
    ensures SplitSpaces(a) == [a]
    decreases |a|
  {
    if |a| > 0 {
      assert ' ' !in a[1..];
      SplitWithoutSpace(a[1..]);
      assert [a[0]] + a[1..] == a;
    }
  }

  lemma {:induction false} SplitAtFirstSpace(a: string, b: string)
    requires ' ' !in a
    ensures SplitSpaces(a + " " + b) == [a] + SplitSpaces(b)
    decreases |a|
  {
    var s := a + " " + b;
    if |a| == 0 {
      assert s == " " + b;
      assert s[1..] == b;
    } else {
      assert s[1..] == a[1..] + " " + b;
      assert ' ' !in a[1..];
      SplitAtFirstSpace(a[1..], b);
      assert [a[0]] + a[1..] == a;
    }
  }

  /** Joining non-empty space-free pieces and splitting again gives the pieces back. */
  lemma {:induction false} SplitJoinRoundTrip(parts: seq<string>)
    requires |parts| >= 1
    requires NoSpaces(parts)
    ensures SplitSpaces(JoinSpaces(parts)) == parts
    decreases |parts|
  {
    assert ' ' !in parts[0];
    if |parts| == 1 {
      SplitWithoutSpace(parts[0]);
    } else {
      SplitAtFirstSpace(parts[0], JoinSpaces(parts[1..]));
      assert NoSpaces(parts[1..]) by {
        forall k | 0 <= k < |parts[1..]| ensures ' ' !in parts[1..][k] {
          assert parts[1..][k] == parts[k + 1];
        }
      }
      SplitJoinRoundTrip(parts[1..]);
      assert [parts[0]] + parts[1..] == parts;
    }
  }
}

=== FILE: transport.dfy ===
/** `Client._request` and `Client._parse` put together: build the headers,
    hand the request to the transport, classify what comes back. A call is
    split into its plan (the request to send, or the exception raised before
    anything is sent) and `Perform`, the one place the transport is used. */
module Transport {
  import opened Wrappers
  import opened Exceptions
  import opened Http
  import opened ClientState
  import opened Parsing

  const AcceptHeader := "Accept"
  const AuthorizationHeader := "Authorization"
  const AccessTokenKey := "access_token"
  const BearerPrefix := "Bearer "

  /** `base.update(headers)` when `headers` is truthy: the caller's entries
      win, and the entries of `base` they do not name are kept. */
  function MergeOver(base: Headers, headers: Headers): (m: Headers)
    ensures forall k :: k in m <==> k in base || k in headers
    ensures forall k | k in headers :: m[k] == headers[k]
    ensures forall k | k in base && k !in headers :: m[k] == base[k]
  {
    if |headers| > 0 then base + headers else base
  }

  /** `headers['Content-Type'] = 'application/json'` unless the `files`
      keyword was passed; every other entry is kept. */
  function SetJsonContentType(m: Headers, filesPassed: bool): (r: Headers)
    ensures forall k :: k in r <==> k in m || (!filesPassed && k == ContentTypeHeader)
    ensures forall k | k in m && (filesPassed || k != ContentTypeHeader) :: r[k] == m[k]
    ensures !filesPassed ==> r[ContentTypeHeader] == JsonMediaType
  {
    if filesPassed then m else m[ContentTypeHeader := JsonMediaType]
  }

  /** The headers `_request` assembles around the bearer credential:
      `Accept` and `Authorization` first, the caller's headers merged over
      them, and `Content-Type: application/json` last unless the `files`
      keyword was passed. */
  function AssembleHeaders(credential: string, headers: Headers, filesPassed: bool): (m: Headers)
    ensures forall k :: k in m <==>
              k == AcceptHeader || k == AuthorizationHeader || k in headers || (!filesPassed && k == ContentTypeHeader)
    ensures AcceptHeader !in headers ==> m[AcceptHeader] == JsonMediaType
    ensures AuthorizationHeader !in headers ==> m[AuthorizationHeader] == BearerPrefix + credential
    ensures forall k | k in headers && (filesPassed || k != ContentTypeHeader) :: m[k] == headers[k]
    ensures !filesPassed ==> m[ContentTypeHeader] == JsonMediaType
  {
    var base := map[AcceptHeader := JsonMediaType, AuthorizationHeader := BearerPrefix + credential];
    assert AcceptHeader != ContentTypeHeader && AuthorizationHeader != ContentTypeHeader;
    SetJsonContentType(MergeOver(base, headers), filesPassed)
  }

  /** The header map `_request` builds. Reading the bearer credential out of
      the selected slot fails when that slot is `None` or has no
      `access_token`; otherwise the headers are assembled around it. */
  function BuildHeaders(c: Client, headers: Headers, filesPassed: bool): (r: Result<Headers, Fault>)
    ensures c.ActiveToken().None? ==> r == Failure(NoTokenSet)
    ensures c.ActiveToken().Some? && AccessTokenKey !in c.ActiveToken().value ==> r == Failure(MissingKey(AccessTokenKey))
    ensures r.Success? <==> c.ActiveToken().Some? && AccessTokenKey in c.ActiveToken().value
    ensures r.Success? ==>
      forall k :: k in r.value <==>
        k == AcceptHeader || k == AuthorizationHeader || k in headers || (!filesPassed && k == ContentTypeHeader)
    ensures r.Success? && AcceptHeader !in headers ==> r.value[AcceptHeader] == JsonMediaType
    ensures r.Success? && AuthorizationHeader !in headers ==>
      r.value[AuthorizationHeader] == BearerPrefix + c.ActiveToken().value[AccessTokenKey]
    ensures r.Success? ==>
      forall k | k in headers && (filesPassed || k != ContentTypeHeader) :: r.value[k] == headers[k]
    ensures r.Success? && !filesPassed ==> r.value[ContentTypeHeader] == JsonMediaType
  {
    var slot := if c.office365 then c.office365Token else c.token;
    match slot
    case None => Failure(NoTokenSet)
    case Some(t) =>
      if AccessTokenKey !in t then Failure(MissingKey(AccessTokenKey))
      else Success(AssembleHeaders(t[AccessTokenKey], headers, filesPassed))
  }

  /** After `set_token` with a token that carries `access_token`, the
      `Authorization` header is that credential, in either mode. */
  lemma AuthorizationFollowsSetToken(c: Client, t: Token, headers: Headers, filesPassed: bool)
    requires AccessTokenKey in t && AuthorizationHeader !in headers
    ensures BuildHeaders(SetToken(c, Some(t)), headers, filesPassed).Success?
    ensures BuildHeaders(SetToken(c, Some(t)), headers, filesPassed).value[AuthorizationHeader]
            == BearerPrefix + t[AccessTokenKey]
  {
  }

  /** The request `_request` would send, or the exception it raises first. */
  function PlanRequest(c: Client, verb: Method, url: string, headers: Headers, args: RequestArgs): (r: Result<HttpRequest, Fault>)
    ensures BuildHeaders(c, headers, args.files.Some?).Failure? ==>
              r == Failure(BuildHeaders(c, headers, args.files.Some?).error)
    ensures BuildHeaders(c, headers, args.files.Some?).Success? ==>
              r.Success? && r.value.verb == verb && r.value.url == url && r.value.args == args
              && r.value.headers == BuildHeaders(c, headers, args.files.Some?).value
  {
    match BuildHeaders(c, headers, args.files.Some?)
    case Failure(f) => Failure(f)
    case Success(h) => Success(HttpRequest(verb, url, h, args))
  }

  /** Carries a plan out: a refused plan raises its exception without using
      the transport; otherwise the transport's response goes through
      `_parse` as written. */
  function Perform(plan: Result<HttpRequest, Fault>, send: Network): (o: Outcome)
    ensures plan.Failure? ==> o == Raised(plan.error)
    ensures plan.Success? ==> o == ParseAsWritten(send(plan.value))
  {
    match plan
    case Failure(f) => Raised(f)
    case Success(req) => ParseAsWritten(send(req))
  }

  /** `Perform` with the corrected `_parse`: it differs from `Perform` only
      on a 204 answer, which it turns into `None` whatever its headers. */
  function PerformCorrected(plan: Result<HttpRequest, Fault>, send: Network): (o: Outcome)
    ensures plan.Failure? ==> o == Raised(plan.error)
    ensures plan.Success? && send(plan.value).status == NoContentCode ==> o == ReturnedNone
    ensures !(plan.Success? && send(plan.value).status == NoContentCode) ==> o == Perform(plan, send)
  {
    match plan
    case Failure(f) => Raised(f)
    case Success(req) => Parse(send(req))
  }

  /** A refused plan makes no network call: its outcome is the same whatever
      the transport would have answered. */
  lemma RefusedPlanMakesNoCall(plan: Result<HttpRequest, Fault>, send1: Network, send2: Network)
    requires plan.Failure?
    ensures Perform(plan, send1) == Perform(plan, send2) == Raised(plan.error)
  {
  }

  /** `Client._request`. */
  function Request(c: Client, verb: Method, url: string, headers: Headers, args: RequestArgs, send: Network): (o: Outcome)
    ensures c.ActiveToken().None? ==> o == Raised(NoTokenSet)
    ensures c.ActiveToken().Some? && AccessTokenKey !in c.ActiveToken().value ==> o == Raised(MissingKey(AccessTokenKey))
    ensures BuildHeaders(c, headers, args.files.Some?).Failure? ==>
              o == Raised(BuildHeaders(c, headers, args.files.Some?).error)
    ensures BuildHeaders(c, headers, args.files.Some?).Success? ==>
              o == ParseAsWritten(send(HttpRequest(verb, url, BuildHeaders(c, headers, args.files.Some?).value, args)))
  {
    Perform(PlanRequest(c, verb, url, headers, args), send)
  }
}

=== FILE: wrappers.dfy ===
/** The two failure-carrying shapes the model needs: an optional value and a
    value-or-error result (the Python code's "return or raise"). */
module Wrappers {

  datatype Option<+T> = None | Some(value: T)

  datatype Result<+T, +E> = Success(value: T) | Failure(error: E)
}
